=== FILE: README.md ===
# Artist pages of ARTSUPPLY, modelled in Dafny

ARTSUPPLY is a music-sharing web site whose page scripts sit on top of a
hosted backend (authentication and a document database). Two scripts hold
all of its decision logic:

- `assets/js/artist.js`, the public artist profile: it shows a loading,
  not-found or profile section; it checks the `uid` query parameter, the
  artist's `users/{uid}` document and its `isArtist` flag; it renders the
  artist's releases; and it runs a follow / unfollow button that keeps a
  denormalised `followers` count on the artist's document.
- `assets/js/artist-dashboard.js`, the artist's own dashboard: it shows a
  loading, denied or dashboard section; it checks the signed-in user, their
  document and `isArtist`; it shows a name and an email picked through
  fallback chains; it lists the artist's releases; and it validates the
  add-release form.

The model lifts these decisions out of the DOM and backend handlers as pure
functions. Every backend answer is an input value: a document read is
`Fetch<T>` (threw / absent / found), a collection read is `Query<T>` (threw /
rows in query order), a save is `SaveAnswer`, and a failing step of the
follow click is a `ClickFault`.

Modules:

- `Js` (`js.dfy`): the JavaScript semantics the scripts rely on. It covers
  truthiness of a loosely typed value, `a || b || d` on optional strings,
  `String.prototype.trim` with the ECMAScript whitespace set, `startsWith`,
  and `${n}` for an integer.
- `Records` (`records.dfy`): the backend answers and the `users` and
  `embeds` documents.
- `Releases` (`releases.dfy`): `renderRelease` / `renderEmbed`. A release
  becomes a heading plus an iframe, a link or nothing.
- `Followers` (`followers.dfy`): the follow counter, the follower label, the
  click toggle and the wiring of the button on auth state changes.
- `ArtistPage` (`artist_page.dfy`): the show helpers, the profile gate and
  the section that ends up visible.
- `ArtistDashboard` (`artist_dashboard.dfy`): `showState`, the auth gate,
  the name and email fallbacks, the release list and the add-release form.

Releases are meant to be listed newest first, but only the dashboard asks
for that (`orderBy("createdAt", "desc")`). The profile page reads the
collection with no ordering. The model follows the code: on both pages it
states only that items keep the order of the query result.

## Model

| member | source | states |
|---|---|---|
| Js.Coalesce | assets/js/artist-dashboard.js:125 | a fallback chain returns the value of the first truthy field, with all earlier fields falsy, or the default when no field is truthy |
| Js.CoalesceNonEmpty | assets/js/artist-dashboard.js:125 | a chain ending in a non-empty literal never yields the empty string |
| Js.TrimStart | assets/js/artist-dashboard.js:138 | the result is a suffix of the input, everything dropped is whitespace, and the result does not start with whitespace |
| Js.TrimEnd | assets/js/artist-dashboard.js:139 | the result is a prefix of the input, everything dropped is whitespace, and the result does not end with whitespace |
| Js.TrimIsMaximalSlice | assets/js/artist-dashboard.js:138-139 | `trim()` gives the slice `s[a..b]` with only whitespace outside it and no whitespace at either end of it |
| Js.TrimEmptyIffBlank | assets/js/artist-dashboard.js:138-141 | the trimmed text is empty exactly when every character of the input is whitespace |
| Js.TrimIdempotent | assets/js/artist-dashboard.js:138-139 | trimming an already trimmed value changes nothing |
| Js.NatToDecimal | assets/js/artist.js:132 | a count prints as at least one decimal digit, with no leading zero unless it is zero |
| Js.DecimalRoundTrip | assets/js/artist.js:132 | reading the printed digits back gives the count |
| Js.IntToStringInjective | assets/js/artist.js:160 | two different counts never print the same way |
| Releases.Classify | assets/js/artist.js:64-76 | the three-way branch on the raw text; `ClassifyExhaustiveDisjoint` states which branch each raw text takes and `ClassifyRoundTrip` that `Source` inverts it |
| Releases.ClassifyExhaustiveDisjoint | assets/js/artist.js:64-76 | raw text starting with `<iframe` is embedded, other non-empty raw text is a link, empty raw text adds nothing, and exactly one case applies |
| Releases.ClassifyRoundTrip | assets/js/artist-dashboard.js:47-61 | the raw text can be recovered from the rendered body, and every body the branch can produce comes from its own raw text |
| Releases.RenderItem | assets/js/artist.js:56-76 | the heading is the title, or "Untitled release" when it is missing or empty, so it is never empty; the body comes from the raw text, read as "" when missing |
| Releases.RenderList | assets/js/artist-dashboard.js:76-78 | one item per document, each at the same position as its document, carrying that document's id |
| Releases.ReleasesListing | assets/js/artist.js:87-97 | an empty collection shows only "No releases yet."; any other shows its items in query order |
| Followers.StoredCount | assets/js/artist.js:123 | the `followers` field with 0 as its fallback, on a stored integer count: a missing count reads as 0, and a present one is kept, since 0 is the only falsy integer and it maps to itself |
| Followers.Follow | assets/js/artist.js:175 | follow gives c + 1 for every modelled integer count, so 0 becomes 1 |
| Followers.Unfollow | assets/js/artist.js:180 | the result is never negative, a count of 0 or 1 becomes 0, and any c ≥ 1 becomes c − 1 |
| Followers.FollowUnfollowRoundTrip | assets/js/artist.js:169-181 | follow then unfollow returns every modelled non-negative count to itself |
| Followers.UnfollowFollowRoundTrip | assets/js/artist.js:169-181 | unfollow then follow returns a positive count to itself; from 0 the floor makes it end at 1 |
| Followers.FollowerLabel | assets/js/artist.js:130-133 | the label written on load and by `setFollowersCount` (artist.js:158-161); `FollowerLabelSingular` states its singular and plural forms and `FollowerLabelInjective` that different counts get different labels |
| Followers.FollowerLabelSingular | assets/js/artist.js:158-161 | the label is "1 follower" exactly when the count is 1, and "N followers" otherwise |
| Followers.FollowerLabelInjective | assets/js/artist.js:130-133 | different counts get different labels |
| Followers.SetFollowersCount | assets/js/artist.js:156-167 | the page copy and the label take the new count even when the backend write then fails; the stored count changes only when the write succeeds |
| Followers.Click | assets/js/artist.js:207-222 | the click re-checks the follow record and flips it; once the relation write succeeds the page copy becomes Unfollow or Follow of the previous page copy and the label shows it; without a fault the button shows "Following" or "Follow" to match and the stored count equals the page copy; a failed counter write leaves the button and stored count as they were; a failed check or relation write changes nothing |
| Followers.ClickUsesRecordNotButton | assets/js/artist.js:207-211 | the click acts on the follow record it reads at click time; what the button shows has no effect on the backend result |
| Followers.ClickPreservesConsistency | assets/js/artist.js:207-218 | a click that does not fail on the counter write keeps the stored count equal to the number of follow records and to the page copy, and the label shows that number |
| Followers.CountWriteFailureBreaksConsistency | assets/js/artist.js:156-167 | when the counter write fails, the page shows the new count but the stored count no longer matches the follow records |
| Followers.ClickTwiceRestores | assets/js/artist.js:207-218 | from a consistent page, two fault-free clicks by the same fan restore the follow records, the stored count, the page copy and the label |
| Followers.Wire | assets/js/artist.js:184-227 | with no uid, no handler is installed; a signed-out visitor gets "Log in to follow" and a redirect; a failed first check only resets the text to "Follow"; otherwise the button matches the follow record and the toggle is installed; the backend, the page copy of the count and the follower label are never touched |
| Followers.ToggleKeepsButtonTruthful | assets/js/artist.js:207-218 | a truthful button stays truthful after any click that does not fail on the counter write |
| ArtistPage.ShowLoading | assets/js/artist.js:27-31 | only the loading section is visible afterwards |
| ArtistPage.ShowNotFound | assets/js/artist.js:33-38 | only the not-found section is visible afterwards, and its message is replaced only by a non-empty message |
| ArtistPage.ShowProfile | assets/js/artist.js:40-44 | only the profile section is visible afterwards |
| ArtistPage.NotFoundMessagesDistinct | assets/js/artist.js:50-144 | each not-found reason has its own message |
| ArtistPage.Avatar | assets/js/artist.js:134-137 | the avatar is the first letter of the name, upper-cased |
| ArtistPage.AvatarIdempotent | assets/js/artist.js:135 | under the modelled ASCII-only upper-casing, the avatar of an avatar letter is that letter again |
| ArtistPage.LoadArtistProfile | assets/js/artist.js:103-144 | the profile gate; `GateProfileIffAllChecksPass`, `GateReasonIsFirstFailure`, `NonArtistIsNotFound` and `ProfileContentFallbacks` state what it decides and what the shown profile holds |
| ArtistPage.LoadClient | assets/js/artist.js:122-133 | what the load does to `currentFollowers` and the follower label; `LoadAndUpdateLabelsAgree` states that it sets the loaded count and the label `setFollowersCount` and the profile would show, and that a failed check leaves both untouched |
| ArtistPage.LoadAndUpdateLabelsAgree | assets/js/artist.js:122-161 | after the load the page copy of the count is the loaded count, and the follower label is the one `setFollowersCount` would write for it and the one the shown profile carries; a failed check leaves the follow side untouched |
| ArtistPage.GateProfileIffAllChecksPass | assets/js/artist.js:103-144 | the profile is shown exactly when the uid is present, the document exists, `isArtist` is truthy and the releases load |
| ArtistPage.GateReasonIsFirstFailure | assets/js/artist.js:50-144 | the page is not-found because of the first check that fails: missing uid, then missing document or a read error, then a falsy `isArtist`, then a release read error |
| ArtistPage.NonArtistIsNotFound | assets/js/artist.js:116-120 | a document whose `isArtist` is falsy is never shown as a profile |
| ArtistPage.ProfileContentFallbacks | assets/js/artist.js:122-138 | the shown name is display name, then email, then "Artist"; the avatar is one upper-cased letter; the bio falls back to "No bio available."; the follower label is built from the loaded count; the release listing is `loadReleases` of the query rows, so the rendered rows in query order, or only "No releases yet." when there are none |
| ArtistPage.RenderPage | assets/js/artist.js:50-144 | the sections after the load, including the missing-uid path at artist.js:50-53 that shows not-found without showing loading; `PageShowsExactlyOneSection` states that exactly the gate's section is visible, with the failure's message |
| ArtistPage.PageShowsExactlyOneSection | assets/js/artist.js:103-144 | after the load exactly one section is visible: profile when the gate passes, not-found with that failure's message otherwise |
| ArtistDashboard.ShowState | assets/js/artist-dashboard.js:29-33 | a section on the page is shown exactly when its name equals the requested state; sections missing from the page stay missing |
| ArtistDashboard.ShowStateShowsAtMostOne | assets/js/artist-dashboard.js:29-33 | at most one section is shown, only the one named by the state, and exactly that one when all three sections are on the page |
| ArtistDashboard.DeniedMessagesDistinct | assets/js/artist-dashboard.js:89-174 | each denial reason has its own message |
| ArtistDashboard.AuthGate | assets/js/artist-dashboard.js:88-175 | the auth gate; `GrantedIffArtist`, `DeniedReasonIsFirstFailure` and `GrantedNameAndEmail` state when it grants, which reason it denies with, and the name and email it picks |
| ArtistDashboard.GrantedIffArtist | assets/js/artist-dashboard.js:110-123 | the dashboard is granted exactly when a user is signed in, their document exists and `!!isArtist` holds |
| ArtistDashboard.DeniedReasonIsFirstFailure | assets/js/artist-dashboard.js:88-175 | access is denied for the first failing check: no user, then a read error or a missing document, then a falsy `isArtist` |
| ArtistDashboard.GrantedNameAndEmail | assets/js/artist-dashboard.js:125-127 | the name is the document's display name, then the account's display name, then its email, then "Artist", and is never empty; the email is the account's, then the document's, then "" |
| ArtistDashboard.LoadEmbeds | assets/js/artist-dashboard.js:67-85 | the list is replaced by the rendered query rows in query order; a failed read empties it and sets the error text, and the inputs are kept |
| ArtistDashboard.OnAuthStateChanged | assets/js/artist-dashboard.js:88-175 | the auth-state handler; `HandlerShowsDeniedOrDashboard` states which section it shows and what else it changes |
| ArtistDashboard.HandlerShowsDeniedOrDashboard | assets/js/artist-dashboard.js:88-175 | with all three sections on the page, after an auth change exactly one section is shown: dashboard, with name, email, list and form wired and the denied text kept, when granted; denied, with the reason's message and nothing else changed, otherwise |
| ArtistDashboard.Submit | assets/js/artist-dashboard.js:134-165 | the form's submit handler; `SubmitRejectsBlank`, `SubmitSavesTrimmed` and `ClearedFormRejectsResubmit` state what it sends, what it appends and when it refuses |
| ArtistDashboard.SubmitRejectsBlank | assets/js/artist-dashboard.js:138-146 | nothing is sent when either input is all whitespace, and then only the error text changes |
| ArtistDashboard.SubmitSavesTrimmed | assets/js/artist-dashboard.js:148-164 | the sent record holds the trimmed inputs; a save appends one item after the existing ones, rendered by `renderEmbed` from the saved id, trimmed title and trimmed raw text, so its body is the iframe markup exactly when that text starts with `<iframe` and a link otherwise, and clears both inputs; a failed save keeps the inputs and sets the error |
| ArtistDashboard.ClearedFormRejectsResubmit | assets/js/artist-dashboard.js:156-158 | after a save the cleared form rejects an immediate second submission |

## Left out

- Backend SDK calls (`getDoc`, `setDoc`, `deleteDoc`, `addDoc`, `getDocs`, `query`/`orderBy`, `onAuthStateChanged`). Their semantics live in the hosted service, so each call is replaced by its possible answers as inputs.
- DOM work: element lookups, `innerHTML` injection of iframe markup, link attributes, CSS class names, and `window.location` redirects. These are browser side effects. The redirect appears only as the `RedirectToLogin` handler.
- Null guards on elements. In artist.js every element is taken as present: the three sections, the not-found message element, the follow button, the release list element (used unguarded at artist.js:83, so its absence would end in "Error loading artist profile."), and the guarded name, bio, follower-label and avatar elements. In the dashboard, all elements except the three sections (which `ShowState` models as possibly missing) are taken as present.
- Async interleaving. This includes the order in which the profile load and the auth callback finish, and the read-then-write race on the counter between concurrent fans. The page copy of the count at click time is an input.
- Timestamps (`followedAt`, `createdAt`) and the ordering by `createdAt`. The backend query does that ordering. The model only keeps query order.
- Console logging, and error text beyond telling which failure happened.
- Field values of the wrong type. Text fields are taken as strings or missing, and `followers` as an integer or missing. A string count in JavaScript would concatenate instead of add.
- Followers.Follow: counts are exact unbounded integers. JavaScript numbers are 64-bit floats, so from 2^53 upward `+ 1` can be lost and the follow/unfollow round trip no longer holds; counts are taken to stay below 2^53.
- Js.NatToDecimal: does not model the exponent notation JavaScript uses for counts of 10^21 and above.
- ArtistPage.Avatar: upper-cases ASCII letters only. The full Unicode case mapping of `toUpperCase` is not modelled, and `charAt(0)` is taken as one Unicode scalar value rather than one UTF-16 code unit.
- ArtistPage.AvatarIdempotent: holds only for the modelled ASCII upper-casing. In JavaScript `"ß".toUpperCase()` is `"SS"`, whose own avatar is `"S"`, so the program makes no such promise for all names.
- A release-list read in the dashboard that fails partway through rendering. The model takes a failed read as rendering nothing.

=== FILE: artist_dashboard.dfy ===
/**
 The artist dashboard (artist-dashboard.js): `showState`, the auth gate run
 on every auth state change, the name and email shown to the artist, the
 release list, and validation of the add-release form.
 */
module ArtistDashboard {
  import opened Js
  import opened Records
  import opened Releases

  // ---------------------------------------------------------------------
  // showState

  /** Display state of the three sections; `None` is a section missing from
      the page, which `showState` skips. */
  datatype DashSections = DashSections(loading: Option<bool>, denied: Option<bool>, dashboard: Option<bool>)

  function SetIfPresent(e: Option<bool>, shown: bool): Option<bool> {
    if e.Some? then Some(shown) else None
  }

  function ShowState(p: DashSections, state: string): (r: DashSections)
    ensures r.loading.Some? == p.loading.Some? && r.denied.Some? == p.denied.Some? &&
            r.dashboard.Some? == p.dashboard.Some?
    ensures r.loading.Some? ==> (r.loading.value <==> state == "loading")
    ensures r.denied.Some? ==> (r.denied.value <==> state == "denied")
    ensures r.dashboard.Some? ==> (r.dashboard.value <==> state == "dashboard")
  {
    DashSections(
      SetIfPresent(p.loading, state == "loading"),
      SetIfPresent(p.denied, state == "denied"),
      SetIfPresent(p.dashboard, state == "dashboard"))
  }

  /** Names of the sections that are on the page and shown. */
  function Shown(p: DashSections): set<string> {
    (if p.loading == Some(true) then {"loading"} else {}) +
    (if p.denied == Some(true) then {"denied"} else {}) +
    (if p.dashboard == Some(true) then {"dashboard"} else {})
  }

  predicate AllPresent(p: DashSections) {
    p.loading.Some? && p.denied.Some? && p.dashboard.Some?
  }

  /** After `showState(s)` at most one section is shown, and it is the
      section named `s` when that section is on the page. */
  lemma ShowStateShowsAtMostOne(p: DashSections, state: string)
    ensures Shown(ShowState(p, state)) <= {state}
    ensures |Shown(ShowState(p, state))| <= 1
    ensures AllPresent(p) && state in {"loading", "denied", "dashboard"} ==>
              Shown(ShowState(p, state)) == {state}
  {
  }

  // ---------------------------------------------------------------------
  // The auth gate

  /** The signed-in user as the auth service reports it. */
  datatype AuthUser = AuthUser(uid: string, displayName: Option<string>, email: Option<string>)

  datatype DeniedReason = NotSignedIn | NoProfile | FanAccount | ProfileLoadFailed

  function DeniedMessage(r: DeniedReason): (m: string)
    ensures m != ""
  {
    match r
    case NotSignedIn => "You must be logged in as an artist to view this page."
    case NoProfile => "No profile found. Please complete signup again or contact support."
    case FanAccount => "This page is only for artist accounts. You are currently registered as a fan."
    case ProfileLoadFailed => "There was a problem loading your artist profile. Please try again."
  }

  /** Each denial has its own message. */
  lemma DeniedMessagesDistinct(a: DeniedReason, b: DeniedReason)
    ensures DeniedMessage(a) == DeniedMessage(b) ==> a == b
  {
  }

  /** `data.displayName || user.displayName || user.email || "Artist"`. */
  function DisplayName(d: UserDoc, u: AuthUser): string {
    Coalesce([d.displayName, u.displayName, u.email], "Artist")
  }

  /** `user.email || data.email || ""`. */
  function ShownEmail(d: UserDoc, u: AuthUser): string {
    Coalesce([u.email, d.email], "")
  }

  datatype Gate = Denied(reason: DeniedReason) | Granted(name: string, email: string)

  /** The checks in order: a user, their profile document, `!!isArtist`. An
      error from the profile read is caught as `ProfileLoadFailed`. */
  function AuthGate(user: Option<AuthUser>, profile: Fetch<UserDoc>): Gate {
    match user
    case None => Denied(NotSignedIn)
    case Some(u) =>
      match profile
      case FetchFailed => Denied(ProfileLoadFailed)
      case Absent => Denied(NoProfile)
      case Found(d) =>
        if !Truthy(d.isArtist) then Denied(FanAccount)
        else Granted(DisplayName(d, u), ShownEmail(d, u))
  }

  /** The dashboard is granted exactly to a signed-in user whose profile
      exists and is marked as an artist. */
  lemma GrantedIffArtist(user: Option<AuthUser>, profile: Fetch<UserDoc>)
    ensures AuthGate(user, profile).Granted? <==>
              user.Some? && profile.Found? && Truthy(profile.value.isArtist)
  {
  }

  /** Every failing check denies, with the reason of the first one. */
  lemma DeniedReasonIsFirstFailure(user: Option<AuthUser>, profile: Fetch<UserDoc>)
    ensures var g := AuthGate(user, profile);
      && (g == Denied(NotSignedIn) <==> user.None?)
      && (g == Denied(ProfileLoadFailed) <==> user.Some? && profile.FetchFailed?)
      && (g == Denied(NoProfile) <==> user.Some? && profile.Absent?)
      && (g == Denied(FanAccount) <==>
            user.Some? && profile.Found? && !Truthy(profile.value.isArtist))
  {
  }

  /** The name falls back from the document's display name to the
      account's display name, then its email, then "Artist", and is never
      empty; the email prefers the account's over the document's. */
  lemma GrantedNameAndEmail(u: AuthUser, d: UserDoc)
    requires Truthy(d.isArtist)
    ensures var g := AuthGate(Some(u), Found(d));
      && g.Granted?
      && g.name != ""
      && g.name == (if Present(d.displayName) then d.displayName.value
                    else if Present(u.displayName) then u.displayName.value
                    else if Present(u.email) then u.email.value
                    else "Artist")
      && g.email == (if Present(u.email) then u.email.value
                     else if Present(d.email) then d.email.value else "")
  {
    var names := [d.displayName, u.displayName, u.email];
    CoalesceNonEmpty(names, "Artist");
    assert names[1] == u.displayName && names[2] == u.email;
    var emails := [u.email, d.email];
    assert emails[1] == d.email;
  }

  // ---------------------------------------------------------------------
  // The page after an auth state change

  /** The add-release form and the release list under it. */
  datatype Form = Form(titleInput: string, codeInput: string, error: string, list: seq<Item>)

  datatype Dashboard = Dashboard(
    sections: DashSections,
    deniedText: string,
    nameText: string,
    emailText: string,
    form: Form,
    formWired: bool)

  /** `loadEmbeds`: clear the list, then render the documents in the order
      the query returned them (it asks for `createdAt` descending); a failed
      read leaves the list empty and sets the form's error text. */
  function LoadEmbeds(f: Form, q: Query<EmbedDoc>): (r: Form)
    ensures r.titleInput == f.titleInput && r.codeInput == f.codeInput
    ensures q.Rows? ==> |r.list| == |q.rows| && r.error == f.error
    ensures q.Rows? ==> forall i :: 0 <= i < |q.rows| ==>
              r.list[i] == RenderItem(Some(q.rows[i].id), q.rows[i].title, q.rows[i].raw)
    ensures q.QueryFailed? ==>
              r.list == [] && r.error == "Could not load your releases from the database."
  {
    match q
    case QueryFailed => f.(list := [], error := "Could not load your releases from the database.")
    case Rows(rows) => f.(list := RenderList(rows, true))
  }

  /** The `onAuthStateChanged` handler. */
  function OnAuthStateChanged(d: Dashboard, user: Option<AuthUser>, profile: Fetch<UserDoc>, embeds: Query<EmbedDoc>): Dashboard {
    match AuthGate(user, profile)
    case Denied(r) => d.(sections := ShowState(d.sections, "denied"), deniedText := DeniedMessage(r))
    case Granted(name, email) =>
      d.(sections := ShowState(d.sections, "dashboard"), nameText := name, emailText := email,
         form := LoadEmbeds(d.form, embeds), formWired := true)
  }

  /** With all three sections on the page, the handler leaves exactly one
      shown: "dashboard" when granted (the form is then wired and the list
      loaded), "denied" with the reason's message otherwise (nothing else
      changes). */
  lemma HandlerShowsDeniedOrDashboard(d: Dashboard, user: Option<AuthUser>, profile: Fetch<UserDoc>, embeds: Query<EmbedDoc>)
    requires AllPresent(d.sections)
    ensures var g := AuthGate(user, profile);
      var r := OnAuthStateChanged(d, user, profile, embeds);
      && (g.Granted? ==> Shown(r.sections) == {"dashboard"} && r.formWired &&
                         r.nameText == g.name && r.emailText == g.email &&
                         r.form == LoadEmbeds(d.form, embeds) && r.deniedText == d.deniedText)
      && (g.Denied? ==> Shown(r.sections) == {"denied"} &&
                        r == d.(sections := ShowState(d.sections, "denied"),
                                deniedText := DeniedMessage(g.reason)))
  {
    ShowStateShowsAtMostOne(d.sections, "denied");
    ShowStateShowsAtMostOne(d.sections, "dashboard");
  }

  // ---------------------------------------------------------------------
  // Add-release form

  const MissingFieldsText := "Please provide a title and embed code or URL."
  const SaveFailedText := "Could not save this release to the database."

  /** Answer of the backend to `addDoc`: the new document's id, or an error. */
  datatype SaveAnswer = SaveFailed | SavedAs(docId: string)

  /** The record the form sends to `addDoc` (the timestamp is not modelled). */
  datatype NewEmbed = NewEmbed(title: string, raw: string)

  datatype Submission = Submission(form: Form, request: Option<NewEmbed>)

  /** The form's submit handler: clear the error, trim both inputs, reject
      a blank one, otherwise send the record and, once saved, render it and
      clear the inputs. */
  function Submit(f: Form, answer: SaveAnswer): Submission {
    var title := Trim(f.titleInput);
    var raw := Trim(f.codeInput);
    if title == "" || raw == "" then
      Submission(f.(error := MissingFieldsText), None)
    else
      var req := Some(NewEmbed(title, raw));
      match answer
      case SaveFailed => Submission(f.(error := SaveFailedText), req)
      case SavedAs(id) =>
        Submission(Form("", "", "", f.list + [RenderItem(Some(id), Some(title), Some(raw))]), req)
  }

  /** Nothing is sent unless both inputs have a non-whitespace character;
      a rejected submission only sets the error text. */
  lemma SubmitRejectsBlank(f: Form, answer: SaveAnswer)
    ensures var s := Submit(f, answer);
      && (s.request.None? <==>
            (forall i :: 0 <= i < |f.titleInput| ==> IsTrimmable(f.titleInput[i])) ||
            (forall i :: 0 <= i < |f.codeInput| ==> IsTrimmable(f.codeInput[i])))
      && (s.request.None? ==> s.form == f.(error := MissingFieldsText))
  {
    TrimEmptyIffBlank(f.titleInput);
    TrimEmptyIffBlank(f.codeInput);
  }

  /** A sent record holds the trimmed inputs. Once saved, exactly one item is
      appended after the existing ones, headed by the trimmed title (never
      the default), rendered by `renderEmbed` from the saved record, so its
      body is the iframe markup exactly when the trimmed raw text starts with
      `<iframe` and a link to it otherwise, and both inputs are cleared. A failed save keeps the inputs. */
  lemma SubmitSavesTrimmed(f: Form, answer: SaveAnswer)
    ensures var s := Submit(f, answer);
      && (s.request.Some? ==>
            s.request.value == NewEmbed(Trim(f.titleInput), Trim(f.codeInput)) &&
            s.request.value.title != "" && s.request.value.raw != "")
      && (s.request.Some? && answer.SavedAs? ==>
            && s.form.titleInput == "" && s.form.codeInput == "" && s.form.error == ""
            && |s.form.list| == |f.list| + 1
            && s.form.list[..|f.list|] == f.list
            && var it := s.form.list[|f.list|];
               it.id == Some(answer.docId) && it.heading == Trim(f.titleInput) &&
               !it.body.TitleOnly? && Source(it.body) == Trim(f.codeInput) &&
               it == RenderItem(Some(answer.docId), Some(Trim(f.titleInput)), Some(Trim(f.codeInput))) &&
               it.body == Classify(Trim(f.codeInput)) &&
               (it.body.Embed? <==> StartsWith(Trim(f.codeInput), IframePrefix)))
      && (s.request.Some? && answer.SaveFailed? ==> s.form == f.(error := SaveFailedText))
  {
  }

  /** After a successful save the cleared form rejects an immediate second
      submission, so one click cannot add the release twice. */
  lemma ClearedFormRejectsResubmit(f: Form, id: string, answer: SaveAnswer)
    ensures var s := Submit(f, SavedAs(id));
      s.request.Some? ==> Submit(s.form, answer).request.None?
  {
  }
}

=== FILE: artist_page.dfy ===
/**
 The public artist profile page (artist.js): its three display sections,
 the show helpers that switch between them, and the sequence of checks in
 `loadArtistProfile` that decides which one ends up visible.
 */
module ArtistPage {
  import opened Js
  import opened Records
  import opened Releases
  import opened Followers

  // ---------------------------------------------------------------------
  // Sections and show helpers

  datatype Section = LoadingSection | NotFoundSection | ProfileSection

  /** Display state of the three sections and the not-found message text. */
  datatype Sections = Sections(loading: bool, notFound: bool, profile: bool, message: string)

  function Visible(s: Sections): set<Section> {
    (if s.loading then {LoadingSection} else {}) +
    (if s.notFound then {NotFoundSection} else {}) +
    (if s.profile then {ProfileSection} else {})
  }

  function ShowLoading(s: Sections): (r: Sections)
    ensures Visible(r) == {LoadingSection}
    ensures r.message == s.message
  {
    Sections(true, false, false, s.message)
  }

  /** Shows the not-found section; the message text changes only when a
      non-empty message is given. */
  function ShowNotFound(s: Sections, message: string): (r: Sections)
    ensures Visible(r) == {NotFoundSection}
    ensures r.message == (if message != "" then message else s.message)
  {
    Sections(false, true, false, if message != "" then message else s.message)
  }

  function ShowProfile(s: Sections): (r: Sections)
    ensures Visible(r) == {ProfileSection}
    ensures r.message == s.message
  {
    Sections(false, false, true, s.message)
  }

  // ---------------------------------------------------------------------
  // The profile gate

  /** Why the page ended in the not-found state; one per check. */
  datatype NotFoundReason = MissingUid | NoProfile | NotArtist | LoadFailed

  function NotFoundMessage(r: NotFoundReason): (m: string)
    ensures m != ""
  {
    match r
    case MissingUid => "No artist id found in the URL."
    case NoProfile => "This artist profile does not exist."
    case NotArtist => "This user is not an artist."
    case LoadFailed => "Error loading artist profile."
  }

  /** Each failure has its own message. */
  lemma NotFoundMessagesDistinct(a: NotFoundReason, b: NotFoundReason)
    ensures NotFoundMessage(a) == NotFoundMessage(b) ==> a == b
  {
    if a != b {
      match a
      case MissingUid => assert NotFoundMessage(a)[0] == 'N';
      case NoProfile => assert NotFoundMessage(a)[5] == 'a';
      case NotArtist => assert NotFoundMessage(a)[5] == 'u';
      case LoadFailed => assert NotFoundMessage(a)[0] == 'E';
    }
  }

  /** What the profile section is filled with. */
  datatype ProfileContent = ProfileContent(
    name: string,
    avatar: string,
    bio: string,
    followersText: string,
    releases: Listing)

  datatype ArtistView = NotFound(reason: NotFoundReason) | Profile(content: ProfileContent)

  /** `displayName.charAt(0).toUpperCase()`. */
  function Avatar(name: string): (a: string)
    ensures name != "" ==> |a| == 1 && a[0] == UpperAscii(name[0])
    ensures name == "" ==> a == ""
  {
    if name == "" then "" else [UpperAscii(name[0])]
  }

  function ArtistName(d: UserDoc): string {
    Coalesce([d.displayName, d.email], "Artist")
  }

  function Content(d: UserDoc, rows: seq<EmbedDoc>): ProfileContent {
    var name := ArtistName(d);
    ProfileContent(name, Avatar(name), OrElse(d.bio, "No bio available."),
                   FollowerLabel(StoredCount(d.followers)), ReleasesListing(rows))
  }

  /** The checks of artist.js in their order: the uid query parameter, the
      user document, its `isArtist` flag, then the release read (an error
      from either read is caught as `LoadFailed`). */
  function LoadArtistProfile(uid: Option<string>, profile: Fetch<UserDoc>, releases: Query<EmbedDoc>): ArtistView {
    if !Present(uid) then NotFound(MissingUid)
    else match profile
      case FetchFailed => NotFound(LoadFailed)
      case Absent => NotFound(NoProfile)
      case Found(d) =>
        if !Truthy(d.isArtist) then NotFound(NotArtist)
        else match releases
          case QueryFailed => NotFound(LoadFailed)
          case Rows(rows) => Profile(Content(d, rows))
  }

  /** The value of `currentFollowers` once the load has finished: set from
      the document as soon as the `isArtist` check passes, even if the
      release read then fails. */
  function LoadedFollowers(uid: Option<string>, profile: Fetch<UserDoc>): int {
    if Present(uid) && profile.Found? && Truthy(profile.value.isArtist)
    then StoredCount(profile.value.followers) else 0
  }

  /** What `loadArtistProfile` does to the follow side of the page: once
      the `isArtist` check passes it sets `currentFollowers` and writes the
      follower label, even if the release read then fails. */
  function LoadClient(c: Client, uid: Option<string>, profile: Fetch<UserDoc>): Client {
    if Present(uid) && profile.Found? && Truthy(profile.value.isArtist) then
      var n := StoredCount(profile.value.followers);
      c.(current := n, followersText := FollowerLabel(n))
    else c
  }

  /** The load leaves `currentFollowers` at the loaded count (starting from
      its initial 0), and writes the same label `setFollowersCount` would
      write for that count, which is also the label of the shown profile. */
  lemma LoadAndUpdateLabelsAgree(c: Client, b: Backend, uid: Option<string>, profile: Fetch<UserDoc>,
                                 releases: Query<EmbedDoc>, writeFails: bool)
    ensures var r := LoadClient(c, uid, profile);
      var passed := Present(uid) && profile.Found? && Truthy(profile.value.isArtist);
      && r.button == c.button
      && (!passed ==> r == c)
      && (passed ==> r.current == LoadedFollowers(uid, profile))
      && (c.current == 0 ==> r.current == LoadedFollowers(uid, profile))
      && (passed ==> r.followersText == SetFollowersCount(Page(b, c), r.current, writeFails).client.followersText)
      && (LoadArtistProfile(uid, profile, releases).Profile? ==>
            r.followersText == LoadArtistProfile(uid, profile, releases).content.followersText)
  {
  }

  /** Showing the avatar's own letter as a name gives the same avatar: the
      letter is already upper-cased. */
  lemma AvatarIdempotent(name: string)
    ensures Avatar(Avatar(name)) == Avatar(name)
  {
  }

  /** The profile is shown exactly when every check passes; otherwise the
      page is not-found with the reason of the first check that failed. */
  lemma GateProfileIffAllChecksPass(uid: Option<string>, profile: Fetch<UserDoc>, releases: Query<EmbedDoc>)
    ensures var v := LoadArtistProfile(uid, profile, releases);
      v.Profile? <==>
        Present(uid) && profile.Found? && Truthy(profile.value.isArtist) && releases.Rows?
  {
  }

  lemma GateReasonIsFirstFailure(uid: Option<string>, profile: Fetch<UserDoc>, releases: Query<EmbedDoc>)
    ensures var v := LoadArtistProfile(uid, profile, releases);
      && (v == NotFound(MissingUid) <==> !Present(uid))
      && (v == NotFound(NoProfile) <==> Present(uid) && profile.Absent?)
      && (v == NotFound(NotArtist) <==>
            Present(uid) && profile.Found? && !Truthy(profile.value.isArtist))
      && (v == NotFound(LoadFailed) <==>
            Present(uid) && (profile.FetchFailed? ||
              (profile.Found? && Truthy(profile.value.isArtist) && releases.QueryFailed?)))
  {
  }

  /** A non-artist document is never shown as a profile, whatever it holds. */
  lemma NonArtistIsNotFound(uid: Option<string>, d: UserDoc, releases: Query<EmbedDoc>)
    requires !Truthy(d.isArtist)
    ensures LoadArtistProfile(uid, Found(d), releases).NotFound?
  {
  }

  /** The shown profile carries the fallbacks of artist.js: name from
      display name, then email, then "Artist"; a one-letter avatar; the
      follower label of the stored count, the same label `setFollowersCount`
      would write; and the release listing in query order. */
  lemma ProfileContentFallbacks(uid: Option<string>, d: UserDoc, rows: seq<EmbedDoc>)
    requires Present(uid) && Truthy(d.isArtist)
    ensures var v := LoadArtistProfile(uid, Found(d), Rows(rows));
      && v.Profile?
      && v.content.name == (if Present(d.displayName) then d.displayName.value
                            else if Present(d.email) then d.email.value else "Artist")
      && |v.content.avatar| == 1 && v.content.avatar[0] == UpperAscii(v.content.name[0])
      && v.content.bio == (if Present(d.bio) then d.bio.value else "No bio available.")
      && v.content.followersText == FollowerLabel(LoadedFollowers(uid, Found(d)))
      && (v.content.releases.NoReleasesYet? <==> rows == [])
      && v.content.releases == ReleasesListing(rows)
  {
    var name := ArtistName(d);
    CoalesceNonEmpty([d.displayName, d.email], "Artist");
    if !Present(d.displayName) && Present(d.email) {
      assert [d.displayName, d.email][1] == d.email;
    }
  }

  // ---------------------------------------------------------------------
  // The whole page

  /** The display after the load: the missing-uid path shows not-found
      without ever showing loading; every other path shows loading first. */
  function RenderPage(s: Sections, uid: Option<string>, profile: Fetch<UserDoc>, releases: Query<EmbedDoc>): Sections {
    match LoadArtistProfile(uid, profile, releases)
    case NotFound(MissingUid) => ShowNotFound(s, NotFoundMessage(MissingUid))
    case NotFound(r) => ShowNotFound(ShowLoading(s), NotFoundMessage(r))
    case Profile(_) => ShowProfile(ShowLoading(s))
  }

  /** Exactly one section is visible at the end, it is the one the gate
      chose, and a not-found page carries that failure's message. */
  lemma PageShowsExactlyOneSection(s: Sections, uid: Option<string>, profile: Fetch<UserDoc>, releases: Query<EmbedDoc>)
    ensures var v := LoadArtistProfile(uid, profile, releases);
      var p := RenderPage(s, uid, profile, releases);
      && |Visible(p)| == 1
      && (v.Profile? <==> Visible(p) == {ProfileSection})
      && (v.NotFound? <==> Visible(p) == {NotFoundSection})
      && (v.NotFound? ==> p.message == NotFoundMessage(v.reason))
      && (v.Profile? ==> p.message == s.message)
  {
  }
}

=== FILE: followers.dfy ===
/**
 The follow / unfollow logic of the public artist page (artist.js): the
 denormalised follower count, its label, the follow button and the click
 handler that toggles the fan's follow record.
 */
module Followers {
  import opened Js

  // ---------------------------------------------------------------------
  // Counter arithmetic

  /** `data.followers || 0`: the count read from the artist's document. */
  function StoredCount(f: Option<int>): (c: int)
    ensures f.None? ==> c == 0
    ensures f.Some? ==> c == f.value
  {
    match f
    case None => 0
    case Some(n) => if n == 0 then 0 else n
  }

  /** `(currentFollowers || 0) + 1`. */
  function Follow(c: int): (r: int)
    ensures r == c + 1
  {
    (if c == 0 then 0 else c) + 1
  }

  /** `Math.max(0, (currentFollowers || 1) - 1)`: a zero count stays zero and
      the result is never negative. */
  function Unfollow(c: int): (r: int)
    ensures r >= 0
    ensures c >= 1 ==> r == c - 1
    ensures c <= 1 ==> r == 0
  {
    var d := (if c == 0 then 1 else c) - 1;
    if d > 0 then d else 0
  }

  /** Following and then unfollowing restores any non-negative count. */
  lemma FollowUnfollowRoundTrip(c: int)
    requires c >= 0
    ensures Unfollow(Follow(c)) == c
  {
  }

  /** Unfollowing and then following restores a positive count; from zero the
      floor makes the pair end at one. */
  lemma UnfollowFollowRoundTrip(c: int)
    ensures c >= 1 ==> Follow(Unfollow(c)) == c
    ensures c <= 0 ==> Follow(Unfollow(c)) == 1
  {
  }

  // ---------------------------------------------------------------------
  // Follower label

  /** `n === 1 ? "1 follower" : `${n} followers``, used both when the
      profile loads and in `setFollowersCount`. */
  function FollowerLabel(n: int): string {
    if n == 1 then "1 follower" else IntToString(n) + " followers"
  }

  /** The label is singular exactly for a count of one. */
  lemma FollowerLabelSingular(n: int)
    ensures FollowerLabel(n) == "1 follower" <==> n == 1
    ensures n != 1 ==> FollowerLabel(n) == IntToString(n) + " followers"
  {
    if n != 1 {
      var l := FollowerLabel(n);
      assert l[|l| - 1] == 's';
      assert "1 follower"[|"1 follower"| - 1] == 'r';
    }
  }

  /** Different counts give different labels, so the label always shows the
      count it was built from. */
  lemma FollowerLabelInjective(m: int, n: int)
    ensures FollowerLabel(m) == FollowerLabel(n) ==> m == n
  {
    FollowerLabelSingular(m);
    FollowerLabelSingular(n);
    if FollowerLabel(m) == FollowerLabel(n) && m != 1 && n != 1 {
      var a := IntToString(m);
      var b := IntToString(n);
      assert |a| == |b|;
      assert a == (a + " followers")[..|a|];
      assert b == (b + " followers")[..|b|];
      IntToStringInjective(m, n);
    }
  }

  // ---------------------------------------------------------------------
  // Page state around the follow button

  /** The backend side for one artist: the fans holding a
      `users/{fan}/follows/{artist}` record, and the `followers` field of the
      artist's document. */
  datatype Backend = Backend(follows: set<string>, stored: int)

  datatype Button = Button(text: string, highlighted: bool)

  /** The page side: the `currentFollowers` variable, the follower label and
      the follow button. */
  datatype Client = Client(current: int, followersText: string, button: Button)

  datatype Page = Page(backend: Backend, client: Client)

  const FollowingButton := Button("Following", true)
  const FollowButton := Button("Follow", false)

  /** The denormalised count agrees with the follow records, and the page's
      copy agrees with the stored count. */
  predicate Consistent(p: Page) {
    p.backend.stored == |p.backend.follows| && p.client.current == p.backend.stored
  }

  /** The button tells the truth about whether `fan` follows the artist. */
  predicate ButtonReflects(p: Page, fan: string) {
    p.client.button == (if fan in p.backend.follows then FollowingButton else FollowButton)
  }

  /** The first await that throws inside the click handler, if any. */
  datatype ClickFault = NoFault | CheckFailed | RelationWriteFailed | CountWriteFailed

  /** `setFollowersCount(n)`: the page copy and label change before the
      backend write, so a failed write still leaves them changed. */
  function SetFollowersCount(p: Page, n: int, writeFails: bool): (q: Page)
    ensures q.client.current == n && q.client.followersText == FollowerLabel(n)
    ensures q.client.button == p.client.button && q.backend.follows == p.backend.follows
    ensures q.backend.stored == (if writeFails then p.backend.stored else n)
  {
    Page(
      Backend(p.backend.follows, if writeFails then p.backend.stored else n),
      Client(n, FollowerLabel(n), p.client.button))
  }

  /** The click handler of a signed-in fan: re-read whether the follow
      record exists and take the opposite action. A thrown error is caught
      and ends the handler where it happened. */
  function Click(p: Page, fan: string, fault: ClickFault): (q: Page)
    ensures fault == CheckFailed || fault == RelationWriteFailed ==> q == p
    ensures fault == NoFault || fault == CountWriteFailed ==>
              (fan in q.backend.follows <==> fan !in p.backend.follows) &&
              q.backend.follows - {fan} == p.backend.follows - {fan}
    ensures fault == NoFault ==> ButtonReflects(q, fan) && q.backend.stored == q.client.current
    ensures fault == CountWriteFailed ==> q.backend.stored == p.backend.stored
    ensures fault == NoFault || fault == CountWriteFailed ==>
              q.client.current == (if fan in p.backend.follows then Unfollow(p.client.current)
                                   else Follow(p.client.current)) &&
              q.client.followersText == FollowerLabel(q.client.current)
    ensures fault == CountWriteFailed ==> q.client.button == p.client.button
  {
    if fault == CheckFailed then p
    else if fan in p.backend.follows then
      if fault == RelationWriteFailed then p
      else
        var removed := Page(Backend(p.backend.follows - {fan}, p.backend.stored), p.client);
        var q := SetFollowersCount(removed, Unfollow(p.client.current), fault == CountWriteFailed);
        if fault == CountWriteFailed then q
        else q.(client := q.client.(button := FollowButton))
    else
      if fault == RelationWriteFailed then p
      else
        var added := Page(Backend(p.backend.follows + {fan}, p.backend.stored), p.client);
        var q := SetFollowersCount(added, Follow(p.client.current), fault == CountWriteFailed);
        if fault == CountWriteFailed then q
        else q.(client := q.client.(button := FollowingButton))
  }

  /** The click decides from the follow record read at click time, not from
      what the button currently shows: whatever the button says, the backend
      ends up the same. */
  lemma ClickUsesRecordNotButton(p: Page, fan: string, fault: ClickFault, shown: Button)
    ensures Click(p.(client := p.client.(button := shown)), fan, fault).backend == Click(p, fan, fault).backend
  {
  }

  /** Without a fault, a click keeps the count consistent with the follow
      records, shows the matching label, and keeps the button truthful. */
  lemma ClickPreservesConsistency(p: Page, fan: string, fault: ClickFault)
    requires Consistent(p)
    requires fault != CountWriteFailed
    ensures Consistent(Click(p, fan, fault))
    ensures Click(p, fan, fault).client.followersText ==
              (if fault == NoFault then FollowerLabel(|Click(p, fan, fault).backend.follows|)
               else p.client.followersText)
  {
    var q := Click(p, fan, fault);
    if fault == NoFault {
      if fan in p.backend.follows {
        assert q.backend.follows == p.backend.follows - {fan};
        assert |q.backend.follows| == |p.backend.follows| - 1;
      } else {
        assert q.backend.follows == p.backend.follows + {fan};
        assert |q.backend.follows| == |p.backend.follows| + 1;
      }
    }
  }

  /** A click whose counter write fails leaves the stored count disagreeing
      with the follow records, while the page already shows the new count. */
  lemma CountWriteFailureBreaksConsistency(p: Page, fan: string)
    requires Consistent(p)
    ensures var q := Click(p, fan, CountWriteFailed);
      q.backend.stored != |q.backend.follows| && q.client.current == |q.backend.follows|
  {
    var q := Click(p, fan, CountWriteFailed);
    if fan in p.backend.follows {
      assert q.backend.follows == p.backend.follows - {fan};
      assert |q.backend.follows| == |p.backend.follows| - 1;
    } else {
      assert q.backend.follows == p.backend.follows + {fan};
      assert |q.backend.follows| == |p.backend.follows| + 1;
    }
  }

  /** Two fault-free clicks by the same fan restore the backend and the page
      count (follow then unfollow, or unfollow then follow). */
  lemma ClickTwiceRestores(p: Page, fan: string)
    requires Consistent(p)
    ensures var q := Click(Click(p, fan, NoFault), fan, NoFault);
      q.backend == p.backend && q.client.current == p.client.current &&
      q.client.followersText == FollowerLabel(p.client.current)
  {
    var q1 := Click(p, fan, NoFault);
    var q2 := Click(q1, fan, NoFault);
    if fan in p.backend.follows {
      assert q1.backend.follows == p.backend.follows - {fan};
      assert |p.backend.follows| >= 1;
      assert q2.backend.follows == p.backend.follows;
    } else {
      assert q1.backend.follows == p.backend.follows + {fan};
      assert q2.backend.follows == p.backend.follows;
      FollowUnfollowRoundTrip(p.client.current);
    }
  }

  // ---------------------------------------------------------------------
  // Wiring the button on an auth state change

  /** What clicking the button does. */
  datatype Handler = NoHandler | RedirectToLogin | ToggleFor(fan: string)

  datatype Wiring = Wiring(page: Page, handler: Handler)

  /** The auth-state callback: no handler is ever registered when the uid
      was missing (the module threw first); a signed-out visitor is sent to
      the login page; otherwise the initial follow check sets the button and
      installs the toggle, or, if the check throws, only resets the text. */
  function Wire(w: Wiring, uidPresent: bool, user: Option<string>, checkFails: bool): (r: Wiring)
    ensures !uidPresent ==> r == w
    ensures r.page.backend == w.page.backend
    ensures r.page.client.current == w.page.client.current
    ensures r.page.client.followersText == w.page.client.followersText
    ensures uidPresent && user.None? ==>
              r.handler == RedirectToLogin && r.page.client.button == Button("Log in to follow", false)
    ensures uidPresent && user.Some? && checkFails ==>
              r.handler == w.handler && r.page.client.button.text == "Follow" &&
              r.page.client.button.highlighted == w.page.client.button.highlighted
    ensures uidPresent && user.Some? && !checkFails ==>
              r.handler == ToggleFor(user.value) && ButtonReflects(r.page, user.value)
  {
    if !uidPresent then w
    else
      var c := w.page.client;
      match user
      case None =>
        Wiring(w.page.(client := c.(button := Button("Log in to follow", false))), RedirectToLogin)
      case Some(fan) =>
        if checkFails then
          Wiring(w.page.(client := c.(button := c.button.(text := "Follow"))), w.handler)
        else
          var b := if fan in w.page.backend.follows then FollowingButton else FollowButton;
          Wiring(w.page.(client := c.(button := b)), ToggleFor(fan))
  }

  /** Once the toggle is installed for a fan, every click without a fault
      keeps the button telling the truth; a faulted check or relation write
      changes nothing. */
  lemma ToggleKeepsButtonTruthful(p: Page, fan: string, fault: ClickFault)
    requires ButtonReflects(p, fan)
    requires fault != CountWriteFailed
    ensures ButtonReflects(Click(p, fan, fault), fan)
  {
  }
}

=== FILE: js.dfy ===
/**
 The small slice of JavaScript value semantics the artist pages rely on:
 truthiness, the `||` fallback on optional strings, `String.prototype.trim`,
 `startsWith`, the decimal formatting of an integer inside a template
 literal, and the ASCII part of `toUpperCase`.
 */
module Js {

  /** A JavaScript value as it can appear in a loosely typed document field.
      Numbers are reals; NaN is its own case. */
  datatype JsValue =
    | Undefined
    | Null
    | Bool(b: bool)
    | Number(n: real)
    | NaN
    | Str(s: string)
    | Object

  /** ECMAScript ToBoolean. */
  predicate Truthy(v: JsValue) {
    match v
    case Undefined => false
    case Null => false
    case Bool(b) => b
    case Number(n) => n != 0.0
    case NaN => false
    case Str(s) => s != ""
    case Object => true
  }

  /** A document field that holds a string or is missing (undefined / null). */
  predicate Present(f: Option<string>) {
    f.Some? && f.value != ""
  }

  datatype Option<+T> = None | Some(value: T)

  /** `f || d` for a string-or-missing field: the field when it is truthy,
      the fallback otherwise. */
  function OrElse(f: Option<string>, d: string): string {
    if Present(f) then f.value else d
  }

  /** `a || b || ... || d`: the first truthy field, else the fallback. */
  function Coalesce(fs: seq<Option<string>>, d: string): (r: string)
    ensures (exists i :: 0 <= i < |fs| && Present(fs[i])) ==>
              exists i :: 0 <= i < |fs| && Present(fs[i]) && r == fs[i].value &&
                          forall j :: 0 <= j < i ==> !Present(fs[j])
    ensures (forall i :: 0 <= i < |fs| ==> !Present(fs[i])) ==> r == d
  {
    if fs == [] then d
    else if Present(fs[0]) then fs[0].value
    else
      var r := Coalesce(fs[1..], d);
      assert forall i :: 1 <= i < |fs| ==> fs[i] == fs[1..][i - 1];
      r
  }

  /** A fallback chain whose last default is a non-empty literal never
      yields the empty string. */
  lemma CoalesceNonEmpty(fs: seq<Option<string>>, d: string)
    requires d != ""
    ensures Coalesce(fs, d) != ""
  {
    if exists i :: 0 <= i < |fs| && Present(fs[i]) {
    }
  }

  // ---------------------------------------------------------------------
  // String.prototype.trim

  /** The ECMAScript WhiteSpace and LineTerminator code points that `trim`
      removes. */
  predicate IsTrimmable(c: char) {
    var k := c as int;
    k == 0x09 || k == 0x0A || k == 0x0B || k == 0x0C || k == 0x0D || k == 0x20 ||
    k == 0xA0 || k == 0x1680 || (0x2000 <= k <= 0x200A) || k == 0x2028 ||
    k == 0x2029 || k == 0x202F || k == 0x205F || k == 0x3000 || k == 0xFEFF
  }

  /** Drops leading trimmable characters: the result is the suffix of `s`
      after its longest all-whitespace prefix. */
  function TrimStart(s: string): (r: string)
    ensures |r| <= |s| && r == s[|s| - |r|..]
    ensures forall i :: 0 <= i < |s| - |r| ==> IsTrimmable(s[i])
    ensures r == [] || !IsTrimmable(r[0])
  {
    if s != [] && IsTrimmable(s[0]) then TrimStart(s[1..]) else s
  }

  /** Drops trailing trimmable characters: the result is the prefix of `s`
      before its longest all-whitespace suffix. */
  function TrimEnd(s: string): (r: string)
    ensures |r| <= |s| && r == s[..|r|]
    ensures forall i :: |r| <= i < |s| ==> IsTrimmable(s[i])
    ensures r == [] || !IsTrimmable(r[|r| - 1])
  {
    if s != [] && IsTrimmable(s[|s| - 1]) then TrimEnd(s[..|s| - 1]) else s
  }

  function Trim(s: string): string {
    TrimEnd(TrimStart(s))
  }

  lemma SuffixPrefix(s: string, a: nat, n: nat)
    requires a + n <= |s|
    ensures s[a..][..n] == s[a..a + n]
  {
  }

  /** `trim` returns the contiguous slice `s[a..b]` of its input. */
  lemma TrimIsSlice(s: string)
    ensures var a := |s| - |TrimStart(s)|; var b := a + |Trim(s)|;
      0 <= a <= b <= |s| && Trim(s) == s[a..b]
  {
    var t := TrimStart(s);
    assert t == s[|s| - |t|..];
    assert TrimEnd(t) == t[..|TrimEnd(t)|];
    SuffixPrefix(s, |s| - |t|, |TrimEnd(t)|);
  }

  /** Everything `trim` cuts after the slice is whitespace. */
  lemma TrimCutsWhitespaceAtEnd(s: string)
    ensures var b := |s| - |TrimStart(s)| + |Trim(s)|;
      forall i :: b <= i < |s| ==> IsTrimmable(s[i])
  {
    var t := TrimStart(s);
    var a := |s| - |t|;
    var b := a + |TrimEnd(t)|;
    forall i | b <= i < |s|
      ensures IsTrimmable(s[i])
    {
      assert s[i] == t[i - a];
    }
  }

  /** Trimming the end of a string that does not start with whitespace
      keeps its first character. */
  lemma TrimEndKeepsFirst(t: string)
    requires t == [] || !IsTrimmable(t[0])
    ensures TrimEnd(t) == [] || !IsTrimmable(TrimEnd(t)[0])
  {
    var r := TrimEnd(t);
    if r != [] {
      assert r[0] == t[0];
    }
  }

  /** `trim` returns the contiguous slice `s[a..b]` of its input that
      neither starts nor ends with whitespace, and everything cut away on
      either side is whitespace. */
  lemma TrimIsMaximalSlice(s: string)
    ensures var a := |s| - |TrimStart(s)|; var b := a + |Trim(s)|;
      0 <= a <= b <= |s| && Trim(s) == s[a..b] &&
      (forall i :: 0 <= i < a ==> IsTrimmable(s[i])) &&
      (forall i :: b <= i < |s| ==> IsTrimmable(s[i]))
    ensures Trim(s) == [] || (!IsTrimmable(Trim(s)[0]) && !IsTrimmable(Trim(s)[|Trim(s)| - 1]))
  {
    TrimIsSlice(s);
    TrimCutsWhitespaceAtEnd(s);
    var t := TrimStart(s);
    TrimEndKeepsFirst(t);
    assert Trim(s) == TrimEnd(t);
  }

  /** The trimmed text is empty exactly when the input is nothing but
      whitespace; this is what makes `!value.trim()` a blank-input test. */
  lemma TrimEmptyIffBlank(s: string)
    ensures Trim(s) == "" <==> forall i :: 0 <= i < |s| ==> IsTrimmable(s[i])
  {
    var t := TrimStart(s);
    if Trim(s) == "" {
      assert t == [];
    } else {
      TrimIsMaximalSlice(s);
    }
  }

  /** Trimming twice is trimming once. */
  lemma TrimIdempotent(s: string)
    ensures Trim(Trim(s)) == Trim(s)
  {
    var r := Trim(s);
    TrimIsMaximalSlice(s);
    if r != [] {
      assert TrimStart(r) == r;
      assert TrimEnd(r) == r;
    }
  }

  // ---------------------------------------------------------------------
  // String.prototype.startsWith

  predicate StartsWith(s: string, prefix: string) {
    |prefix| <= |s| && s[..|prefix|] == prefix
  }

  // ---------------------------------------------------------------------
  // Integer formatting in a template literal (`${n}`)

  predicate IsDigit(c: char) {
    '0' <= c <= '9'
  }

  predicate AllDigits(s: string) {
    forall i :: 0 <= i < |s| ==> IsDigit(s[i])
  }

  function DigitChar(d: nat): (c: char)
    requires d < 10
    ensures IsDigit(c) && (c as int) - ('0' as int) == d
  {
    (('0' as int) + d) as char
  }

  /** Shortest decimal spelling of a natural number: at least one digit and
      no leading zero unless the number is zero. */
  function NatToDecimal(n: nat): (s: string)
    ensures |s| >= 1 && AllDigits(s)
    ensures s[0] == '0' ==> n == 0
  {
    if n < 10 then [DigitChar(n)] else NatToDecimal(n / 10) + [DigitChar(n % 10)]
  }

  /** The number a string of decimal digits denotes; the reading of a
      formatted count back from its label. */
  function DecimalValue(s: string): nat
    requires AllDigits(s)
  {
    if s == [] then 0
    else DecimalValue(s[..|s| - 1]) * 10 + ((s[|s| - 1] as int) - ('0' as int))
  }

  lemma {:induction false} DecimalRoundTrip(n: nat)
    ensures DecimalValue(NatToDecimal(n)) == n
  {
    if n >= 10 {
      var s := NatToDecimal(n);
      assert s[..|s| - 1] == NatToDecimal(n / 10);
      DecimalRoundTrip(n / 10);
    }
  }

  /** `${n}` for an integer count (JavaScript prints integers below 10^21
      in plain decimal, with a leading minus sign when negative). */
  function IntToString(n: int): string {
    if n < 0 then "-" + NatToDecimal(-n) else NatToDecimal(n)
  }

  /** Distinct counts are printed differently. */
  lemma IntToStringInjective(m: int, n: int)
    ensures IntToString(m) == IntToString(n) ==> m == n
  {
    if IntToString(m) == IntToString(n) {
      if m < 0 && n < 0 {
        assert NatToDecimal(-m) == IntToString(m)[1..];
        assert NatToDecimal(-n) == IntToString(n)[1..];
        DecimalRoundTrip(-m);
        DecimalRoundTrip(-n);
      } else if m >= 0 && n >= 0 {
        DecimalRoundTrip(m);
        DecimalRoundTrip(n);
      }
    }
  }

  // ---------------------------------------------------------------------
  // toUpperCase, restricted to ASCII letters

  function UpperAscii(c: char): (u: char)
    ensures !('a' <= u <= 'z')
  {
    if 'a' <= c <= 'z' then ((c as int) - 32) as char else c
  }
}

=== FILE: records.dfy ===
/**
 Backend answers, taken as inputs. The document database and the
 authentication service are not modelled; each read the page scripts make is
 represented by the outcome it can have.
 */
module Records {
  import opened Js

  /** Outcome of reading one document: the call threw, the document does not
      exist, or it exists with the given data. */
  datatype Fetch<+T> = FetchFailed | Absent | Found(value: T)

  /** Outcome of reading a collection: the call threw, or the documents in
      the order the query returned them. */
  datatype Query<+T> = QueryFailed | Rows(rows: seq<T>)

  /** A `users/{uid}` document as the two pages read it. `isArtist` is kept
      as an arbitrary value because only its truthiness is checked. */
  datatype UserDoc = UserDoc(
    isArtist: JsValue,
    displayName: Option<string>,
    email: Option<string>,
    bio: Option<string>,
    followers: Option<int>)

  /** A `users/{uid}/embeds/{id}` document: a release. */
  datatype EmbedDoc = EmbedDoc(id: string, title: Option<string>, raw: Option<string>)
}

=== FILE: releases.dfy ===
/**
 Rendering of one release (artist.js `renderRelease`, artist-dashboard.js
 `renderEmbed`): a heading, then either the raw iframe markup, a link to the
 raw URL, or nothing more.
 */
module Releases {
  import opened Js
  import opened Records

  const DefaultTitle := "Untitled release"
  const IframePrefix := "<iframe"

  /** What follows the heading of a rendered release. */
  datatype Body = Embed(markup: string) | Link(href: string) | TitleOnly

  /** A rendered release item; `id` is the `data-id` the dashboard sets. */
  datatype Item = Item(id: Option<string>, heading: string, body: Body)

  /** The three-way branch on the raw text. */
  function Classify(raw: string): Body {
    if StartsWith(raw, IframePrefix) then Embed(raw)
    else if raw != "" then Link(raw)
    else TitleOnly
  }

  /** The raw text a body was built from: the reference reading of a body. */
  function Source(b: Body): string {
    match b
    case Embed(m) => m
    case Link(h) => h
    case TitleOnly => ""
  }

  /** A body `Classify` can produce. */
  predicate WellFormed(b: Body) {
    match b
    case Embed(m) => StartsWith(m, IframePrefix)
    case Link(h) => h != "" && !StartsWith(h, IframePrefix)
    case TitleOnly => true
  }

  /** The classification is exhaustive and disjoint: exactly one of the three
      conditions on the raw text holds, and it picks the constructor. */
  lemma ClassifyExhaustiveDisjoint(raw: string)
    ensures StartsWith(raw, IframePrefix) <==> Classify(raw).Embed?
    ensures (raw != "" && !StartsWith(raw, IframePrefix)) <==> Classify(raw).Link?
    ensures raw == "" <==> Classify(raw).TitleOnly?
    ensures Classify(raw).Embed? || Classify(raw).Link? || Classify(raw).TitleOnly?
  {
  }

  /** Classification loses nothing: the raw text is recovered from the body,
      and every well-formed body is the classification of its source. */
  lemma ClassifyRoundTrip(raw: string, b: Body)
    ensures WellFormed(Classify(raw)) && Source(Classify(raw)) == raw
    ensures WellFormed(b) ==> Classify(Source(b)) == b
  {
  }

  /** One item: `title || "Untitled release"` as heading and `raw || ""`
      classified as body. */
  function RenderItem(id: Option<string>, title: Option<string>, raw: Option<string>): (it: Item)
    ensures it.id == id
    ensures it.heading != ""
    ensures Present(title) ==> it.heading == title.value
    ensures !Present(title) ==> it.heading == DefaultTitle
    ensures Source(it.body) == OrElse(raw, "") && WellFormed(it.body)
  {
    ClassifyRoundTrip(OrElse(raw, ""), TitleOnly);
    Item(id, OrElse(title, DefaultTitle), Classify(OrElse(raw, "")))
  }

  /** One item per document, in the order the query returned them (the
      `snap.forEach` loop). `withIds` says whether `data-id` is set. */
  function RenderList(docs: seq<EmbedDoc>, withIds: bool): (items: seq<Item>)
    ensures |items| == |docs|
    ensures forall i :: 0 <= i < |docs| ==>
              items[i] == RenderItem(if withIds then Some(docs[i].id) else None, docs[i].title, docs[i].raw)
  {
    if docs == [] then []
    else
      var d := docs[0];
      [RenderItem(if withIds then Some(d.id) else None, d.title, d.raw)] + RenderList(docs[1..], withIds)
  }

  /** What the profile page's release list shows. */
  datatype Listing = NoReleasesYet | ReleaseItems(items: seq<Item>)

  const NoReleasesText := "No releases yet."

  /** artist.js `loadReleases` after a successful read: the placeholder for
      an empty collection, the rendered items otherwise. */
  function ReleasesListing(rows: seq<EmbedDoc>): (l: Listing)
    ensures l.NoReleasesYet? <==> rows == []
    ensures l.ReleaseItems? ==> l.items == RenderList(rows, false) && |l.items| > 0
  {
    if rows == [] then NoReleasesYet else ReleaseItems(RenderList(rows, false))
  }
}
